=== FILE: README.md ===
# Trajectory recall: a verified model

`agent-remembers-trajectories` replays past browser-agent runs. Before an
agent is launched on a task, the service looks up the most similar trajectory
that an earlier agent of the same organisation completed and validated. It
turns that trajectory's tool calls into numbered steps, puts a fixed
"execute this exactly" directive in front of them, and appends the result to
the task's objective. Then it posts the task to the agent platform.

This project models that core in Dafny. The modules are:

- `Text` covers Python's substring test, `str.replace(p, "")`, `str(n)` and
  `"\n".join` / `split("\n")`.
- `Json` holds the decoded JSON values and Python's view of them: `bool(v)`,
  `in`, `[...]` and `json.dumps`. It also holds PostgreSQL's `->` and `->>`.
- `Models` holds the task record `{objective, start_url}`.
- `TrajectoryStore` covers the tenant gate, the candidate query (a filter and
  an arg-max over the `trajectory` rows) and the event query (the tool
  results of one trajectory, by index).
- `TrajectoryFormat` covers the event-to-step loop. `Classify` is its body
  for one row and `FormatSteps` is the loop itself, as a method with
  invariants.
- `Instructions` covers `format_trajectory_as_instructions`.
- `TrajectoryDatabase` covers `get_similar_trajectory`: the gate, the two
  queries, the loop and the two `except` clauses.
- `Activities` covers the activities `retrieve_trajectory` and
  `launch_agent`.

The database, `json.loads`, the trigram similarity and the HTTP exchange are
inputs of the model:

- The database is a `Database` value: its rows, plus whether each query
  raises.
- `json.loads` is a `Loads` function, where None stands for a decode error.
- The trigram similarity is a `Similarity` function into `real`.
- The HTTP exchange is a `send` function giving an `HttpOutcome`, and a
  `describe` function giving the exception's text.

Python's exceptions inside the loop are modelled as the `Raised` outcome.
These are a value of an unexpected type reaching `.get`, `in`, `[...]`,
`.replace` or `dict(...)`. The `except Exception` clause of
`get_similar_trajectory` turns them into "no trajectory".

The instruction wrapper is not idempotent. It tests for the marker
`## Similar Trajectory`, but the header it adds says
`## Reference Trajectory`. So only empty or already-marked text is a fixed
point, and `Instructions.WrapTwice` proves that any other text gets the
header twice.

## Model

| member | source | states |
|---|---|---|
| Text.ContainsIff | app/database.py:145 | Python's substring test holds exactly when the pattern occurs at some position |
| Text.RemoveAllUnchanged | app/database.py:149-151 | `replace(p, "")` leaves a string unchanged exactly when `p` does not occur in it |
| Text.RemoveAllShrinks | app/database.py:149-151 | when `p` occurs, `replace(p, "")` removes at least `len(p)` characters |
| Text.DecimalRoundTrip | app/database.py:178 | the rendered step number reads back as the number |
| Text.SplitJoin | app/database.py:182 | splitting the `"\n"`-join of break-free lines gives exactly those lines back |
| Text.JoinSplit | app/database.py:182 | joining the pieces of `split("\n")` gives the text back |
| Json.Get | app/database.py:138 | a dict lookup finds a value exactly when some member has the key |
| Json.Put | app/database.py:160-175 | an assignment sets the key and leaves every other key's value unchanged; it keeps existing keys in place and appends a new key at the end |
| Json.FalsyValues | app/database.py:121-172 | Python truthiness as used by the `if` tests on lines 121, 139, 142, 157, 166 and 172: None, False, 0, "", [] and {} are falsy and every other value is truthy |
| Json.PyIn | app/database.py:157-159 | `in` raises for None, bools and ints; on a dict it tests the keys |
| Json.PyIndex | app/database.py:158-175 | subscripting succeeds exactly on a dict holding the key and gives that key's value |
| Json.Field | app/database.py:71 | PostgreSQL `->` gives NULL unless the value is an object holding the key; on an object holding the key it gives that member's value |
| Json.PgText | app/database.py:71 | PostgreSQL `->>` is NULL exactly for NULL and gives a string's text unquoted |
| Json.Dumps | app/database.py:178 | `json.dumps(..., ensure_ascii=False)` with the default separators is never empty, and it brackets objects with braces and arrays with square brackets |
| Json.DumpsIsOneLine | app/database.py:178 | `json.dumps` output never contains a line break |
| TrajectoryStore.OrgAdmissible | app/database.py:54-62 | the tenant gate admits an organisation id only when it is present, non-empty and not one of the three placeholders |
| TrajectoryStore.Qualifies | app/database.py:68-81 | the WHERE clause: same start URL, completed, no error, headless, similarity above 0.1, same organisation, and a tool-result event of the `answer` tool whose result contains `success=True` |
| TrajectoryStore.Outranks | app/database.py:82-84 | the ORDER BY: higher similarity first, then later creation time |
| TrajectoryStore.OutranksIsOrder | app/database.py:82-84 | the ORDER BY (similarity, then created_at, both descending) is asymmetric, and "does not outrank" is transitive |
| TrajectoryStore.BestCandidate | app/database.py:64-86 | the selected row is stored and passes every WHERE filter, and no qualifying row outranks it; none is selected exactly when no row qualifies |
| TrajectoryStore.ToolResults | app/database.py:102-105 | the event query keeps exactly the tool-result events of the trajectory, each as many times as it occurs |
| TrajectoryStore.InsertByIndex | app/database.py:106 | inserting an event into an index-sorted list keeps it sorted, and the result holds the old events plus the new one |
| TrajectoryStore.SortByIndex | app/database.py:106 | the events come back sorted by index, as a permutation of the input |
| TrajectoryStore.EventQuery | app/database.py:97-107 | the event rows are exactly the trajectory's tool results, with their multiplicities, in index order |
| TrajectoryFormat.DecodeRequest | app/database.py:120-129 | a row is dropped exactly when `tool_req` is falsy or a string that does not decode; a truthy non-string request is used as it is; a string that decodes is replaced by its decoded value |
| TrajectoryFormat.DecodeResult | app/database.py:130-134 | a non-string result is used as it is; a string that does not decode becomes None; a string that decodes becomes the decoded value |
| TrajectoryFormat.ToolName | app/database.py:137-141 | reading the tool name raises exactly when the request is truthy but not a dict; a dict holding `tool_name` gives that value; a falsy request, or a dict without `tool_name`, gives `"unknown"` |
| TrajectoryFormat.ToolArgs | app/database.py:142 | the args are the request dict's `args` value, and `{}` when it has none or the request is not a dict |
| TrajectoryFormat.CopyArgs | app/database.py:154 | `dict(args)` copies a dict unchanged; any other accepted value gives an empty dict |
| Text.RemoveAll | app/database.py:149-151 | `str.replace(p, "")` never lengthens a string (partners: `Text.RemoveAllUnchanged`, `Text.RemoveAllShrinks`) |
| TrajectoryFormat.SimplifyName | app/database.py:149-151 | the name with every `_localizer_web` and then every `_web` removed is never longer than the name |
| TrajectoryFormat.SimplifyNameUnchanged | app/database.py:148-151 | name simplification changes a name exactly when it contains `_web` |
| TrajectoryFormat.AddCoordinates | app/database.py:156-163 | `coordinates` becomes `{x, y}` of a localizer output holding both, and nothing else changes; a falsy result changes nothing; a well-shaped result never raises |
| TrajectoryFormat.AddViewport | app/database.py:165-169 | `viewport_size` is copied from a result dict holding it, and nothing else changes; a dict result never raises |
| TrajectoryFormat.AddElement | app/database.py:171-175 | `element` is copied from the result only if the details lack it, and nothing else changes; a dict result never raises |
| TrajectoryFormat.EnrichDetails | app/database.py:153-175 | the details begin with the args' keys in their order; a falsy result leaves the args as they are; a well-shaped result never raises |
| TrajectoryFormat.EnrichDetailsKeepsArgs | app/database.py:153-175 | every key other than `coordinates`, `viewport_size` and `element` keeps its value from the args |
| TrajectoryFormat.EnrichDetailsCoordinates | app/database.py:156-163 | `coordinates` is the localizer point when there is one, otherwise the args' value |
| TrajectoryFormat.EnrichDetailsViewport | app/database.py:165-169 | `viewport_size` comes from the result when present, otherwise from the args |
| TrajectoryFormat.EnrichDetailsElement | app/database.py:171-175 | `element` comes from the result only when the args lack it |
| TrajectoryFormat.Classify | app/database.py:119-180 | a row is skipped when its request is falsy or an undecodable string, or when its tool name contains `answer`; a rendered step comes from a tool name without `answer`, carries that name simplified, and carries as details the copied args enriched from the decoded result |
| TrajectoryFormat.ClassifyEmits | app/database.py:119-180 | a row whose request is a dict naming a tool without `answer`, whose args are a dict and whose result is falsy or a well-shaped dict is always rendered, as the simplified name with the enriched args |
| TrajectoryFormat.Line | app/database.py:178 | a step line starts with the step number, `. `, the name and `(`, and ends with `)`, and between the parentheses is `json.dumps` of the step's details (partners: `Text.DecimalRoundTrip`, `TrajectoryFormat.LineIsOneLine`) |
| TrajectoryFormat.Kept | app/database.py:177-180 | the rendered rows are exactly the rows that emit a step, in ascending order |
| TrajectoryFormat.NumberedLinesSnoc | app/database.py:177-180 | one more row adds at most one line, and that line is numbered right after the lines before it |
| TrajectoryFormat.FormattedText | app/database.py:117-182 | the loop's result as a value: when no row raises and none is rendered, the text is empty |
| TrajectoryFormat.FormatSteps | app/database.py:117-182 | the loop returns None exactly when some row raises; otherwise it returns the rendered steps, numbered 1..k and joined by line breaks |
| TrajectoryFormat.LineIsOneLine | app/database.py:178 | a step line is non-empty and has no line break when the tool name has none |
| TrajectoryFormat.LinesOnOneLine | app/database.py:177-180 | when no rendered name holds a line break, every numbered line is non-empty and break-free |
| TrajectoryFormat.FormattedTextLines | app/database.py:177-182 | when no rendered name holds a line break, the joined text is empty exactly when no row is rendered, and otherwise splitting it into lines gives exactly the numbered steps |
| TrajectoryFormat.FormattedTextEmpty | app/database.py:177-182 | for any names, the joined text is empty exactly when no row is rendered |
| Instructions.FormatTrajectoryAsInstructions | app/database.py:194-217 | the input is a suffix of the output; the output is empty exactly for empty input; marked input comes back unchanged |
| Instructions.HeaderLacksMarker | app/database.py:204-215 | the header the wrapper adds does not contain the marker it checks for |
| Instructions.WrapAddsHeader | app/database.py:207-217 | unmarked non-empty text is returned as the header followed by the text, and it is still unmarked |
| Instructions.WrapTwice | app/database.py:200-217 | wrapping keeps the marker exactly when the input has it; empty or marked text is a fixed point; any other text gets the header twice, so wrapping is not idempotent |
| TrajectoryDatabase.Recover | app/database.py:184-192 | a ProgrammingError without "does not exist" propagates unchanged; every other exception gives None |
| TrajectoryDatabase.EventRows | app/database.py:97-101 | one row per event of the event query, in its order, holding the event's `tool_req` and `result` |
| TrajectoryDatabase.SimilarTrajectory | app/database.py:39-192 | a refused organisation gives None; an exception escapes only as a ProgrammingError without "does not exist"; a failure of the candidate query, or of the event query after a row is selected, goes through the two `except` clauses (`Recover`); when no row qualifies the result is None |
| TrajectoryDatabase.GetSimilarTrajectory | app/database.py:39-192 | the step-by-step method returns exactly what SimilarTrajectory describes |
| TrajectoryDatabase.TenantIsolation | app/database.py:54-89 | a returned text is the formatted events of a stored trajectory of the requested organisation that passes every filter and is not outranked |
| TrajectoryDatabase.QualifiedHasEvents | app/database.py:74-81 | a trajectory that passes the candidate query always has tool-result events, because its validated answer is one |
| TrajectoryDatabase.FoundReturnsText | app/database.py:89-182 | when both queries succeed and a row qualifies, the call returns, and it returns None exactly when the loop raises |
| Activities.EnhanceTask | app/activities.py:30-46 | a found non-empty trajectory is appended to the objective in its wrapped form, so the new objective ends with the trajectory text; otherwise the task comes back as it was; `start_url` never changes; the objective is always a prefix; an escaping exception is passed on |
| Activities.RetrieveTrajectory | app/activities.py:10-46 | the activity returns the task enhanced with the lookup's outcome; a refused organisation leaves the task unchanged |
| Activities.EnhancedObjective | app/activities.py:30-38 | an enhanced objective is the original followed by the wrapped steps of a qualifying trajectory of the same organisation |
| Activities.Payload | app/activities.py:64-70 | the payload carries the objective, `start_url` and `is_public` verbatim |
| Activities.AgentUrl | app/activities.py:73 | the URL is the base URL, then `/api/v1/agents/`, then the agent name, then `/trajectories` |
| Activities.HeadersFor | app/activities.py:76-84 | Content-Type is always set; Authorization, X-User-Sub and X-User-Org are each present exactly when their setting is non-empty, with values `Bearer <token>`, the sub and the org; no other header is set |
| Activities.BuildHeaders | app/activities.py:76-84 | the in-place insertions build exactly the headers HeadersFor describes |
| Activities.ClassifyResponse | app/activities.py:86-103 | a 2xx response gives success with the body unchanged; a non-2xx response or an `httpx.HTTPError` gives failure with the error text and no result; an exception escapes exactly for a 2xx response with a non-JSON body or an exception outside httpx's error hierarchy, such as `httpx.InvalidURL` |
| Activities.LaunchAgent | app/activities.py:50-103 | the activity posts the payload to the agent URL with the headers, and classifies the outcome |

## Left out

- SQL execution and `pg_trgm` are not modelled. The queries are functions over the given rows, and the trigram similarity is a parameter.
- The `CREATE EXTENSION` statement (app/database.py:42-47) is not modelled: its failure is swallowed. Its effect on the session's transaction state is not modelled either.
- Casting `org_id` to a UUID, and the `DataError` a malformed one raises, are not modelled separately. A query failure is any `DbError`, and a non-ProgrammingError one gives None.
- The rows are read once. Rows that change between the candidate query and the event query are not modelled, so the "no events" return is unreachable in the model (`TrajectoryDatabase.QualifiedHasEvents`).
- `json.loads` is a parameter. The decoder itself, duplicate keys and floating-point numbers are not modelled: JSON numbers are integers here.
- jsonb's own key ordering is not modelled. Objects keep the order the rows give them.
- TrajectoryFormat.CopyArgs: `dict(args)` of a non-empty list of key/value pairs builds a dict in Python. The model treats every non-empty list or string as raising.
- Activities.ClassifyResponse: the text of httpx's exception is the `describe` parameter, not httpx's own message format.
- httpx's serialisation of `json=payload` is not modelled. The payload is a JSON value.
- The network call, the client timeout, logging and the `print` warnings are not modelled.
- Temporal workflow retries and timeouts (app/workflows.py) are not modelled. The API and worker plumbing, and configuration loading, are not modelled either. Configuration values are an `AgentConfig` input.

=== FILE: activities.dfy ===
/**
 * The two workflow activities: `retrieve_trajectory`, which appends the
 * replay instructions of a similar past trajectory to a task's objective,
 * and `launch_agent`, which posts the task to the agent platform and turns
 * the HTTP outcome into a `{success, result}` or `{success, error}` record.
 *
 * The HTTP exchange is an input: `send` gives the outcome of posting a
 * request, and `describe` gives `str(e)` of the httpx exception for a failed
 * outcome. Configuration values are passed in rather than read from the
 * environment.
 */
module Activities {
  import opened Wrappers
  import opened Text
  import opened Json
  import opened Models
  import opened TrajectoryStore
  import opened TrajectoryFormat
  import opened Instructions
  import opened TrajectoryDatabase

  // ---------------------------------------------------------------------------
  // retrieve_trajectory

  /** A lookup that yields instructions: a non-empty text (an empty one is falsy). */
  predicate FoundText(lookup: Lookup) {
    lookup.Returned? && lookup.trajectory.Some? && lookup.trajectory.value != ""
  }

  /**
   * What `retrieve_trajectory` makes of the lookup's outcome: the task with
   * the wrapped trajectory appended to its objective when a trajectory is
   * found, the task itself otherwise. An exception that leaves the lookup
   * leaves the activity too.
   */
  function EnhanceTask(task: Task, lookup: Lookup): (r: Result<Task, DbError>)
    ensures r.Failure? <==> lookup.Escaped?
    ensures r.Failure? ==> r.error == lookup.error
    ensures r.Success? ==> r.value.startUrl == task.startUrl
    ensures r.Success? ==> IsPrefix(task.objective, r.value.objective)
    ensures r.Success? ==> (r.value == task <==> !FoundText(lookup))
    ensures FoundText(lookup) ==> IsSuffixOf(lookup.trajectory.value, r.value.objective)
  {
    match lookup
    case Escaped(e) => Failure(e)
    case Returned(trajectory) =>
      if trajectory.Some? && trajectory.value != "" then
        var instructions := FormatTrajectoryAsInstructions(trajectory.value);
        var objective := task.objective + instructions;
        SuffixOfAppend(task.objective, instructions, trajectory.value);
        Success(Task(objective, task.startUrl))
      else Success(task)
  }

  /** `retrieve_trajectory(task, org_id)`: look the trajectory up, then enhance the task. */
  method RetrieveTrajectory(task: Task, orgId: Option<string>, db: Database,
                            similarity: Similarity, loads: Loads) returns (r: Result<Task, DbError>)
    ensures r == EnhanceTask(task, SimilarTrajectory(task.objective, task.startUrl, orgId, db, similarity, loads))
    ensures !OrgAdmissible(orgId) ==> r == Success(task)
  {
    var trajectory := GetSimilarTrajectory(task.objective, task.startUrl, orgId, db, similarity, loads);
    r := EnhanceTask(task, trajectory);
  }

  /**
   * What an enhanced objective carries: the original objective followed by
   * the instructions built from the steps of a trajectory of the requested
   * organisation that meets every filter.
   */
  lemma EnhancedObjective(task: Task, orgId: Option<string>, db: Database,
                          similarity: Similarity, loads: Loads)
    ensures var r := EnhanceTask(task, SimilarTrajectory(task.objective, task.startUrl, orgId, db, similarity, loads));
      r.Success? && r.value != task ==>
        && OrgAdmissible(orgId)
        && exists t :: (
          && t in db.trajectories && t.orgId == orgId
          && Qualifies(t, CandidateQuery(task.objective, task.startUrl, orgId), similarity)
          && FormattedText(EventRows(t), loads).Some?
          && r.value.objective
             == task.objective + FormatTrajectoryAsInstructions(FormattedText(EventRows(t), loads).value))
  {
    var lookup := SimilarTrajectory(task.objective, task.startUrl, orgId, db, similarity, loads);
    var r := EnhanceTask(task, lookup);
    if r.Success? && r.value != task {
      assert FoundText(lookup);
      TenantIsolation(task.objective, task.startUrl, orgId, db, similarity, loads);
      var q := CandidateQuery(task.objective, task.startUrl, orgId);
      var t :| && t in db.trajectories && t.orgId == orgId && Qualifies(t, q, similarity)
               && (forall u :: u in db.trajectories && Qualifies(u, q, similarity) ==> !Outranks(u, t, q, similarity))
               && lookup.trajectory == FormattedText(EventRows(t), loads);
      assert r.value.objective == task.objective + FormatTrajectoryAsInstructions(lookup.trajectory.value);
    }
  }

  // ---------------------------------------------------------------------------
  // launch_agent

  /** The agent platform settings the activity reads from its configuration. */
  datatype AgentConfig = AgentConfig(
    platformUrl: string,
    agentName: string,
    apiToken: string,
    userSub: string,
    userOrg: string)

  /** The POST request the activity sends. */
  datatype Request = Request(url: string, payload: Json, headers: map<string, string>)

  /**
   * How the exchange ended: a response (its status and its body if it
   * decodes as JSON), a transport failure (an `httpx.HTTPError`), or an
   * exception outside that hierarchy, such as `httpx.InvalidURL` for a
   * malformed platform URL.
   */
  datatype HttpOutcome = Responded(status: int, body: Option<Json>) | TransportFailed | OtherException

  /** `str(e)` of the httpx exception for a failed outcome. */
  type Describe = HttpOutcome -> string

  /** The request body: the task's objective and start URL, and the visibility flag. */
  function Payload(task: Task, isPublic: bool): (j: Json)
    ensures j.JObj? && |j.members| == 2
    ensures Field(Field(j, "task"), "objective") == JStr(task.objective)
    ensures Field(Field(j, "task"), "start_url") == JStr(task.startUrl)
    ensures Field(j, "is_public") == JBool(isPublic)
  {
    var fields := [Member("objective", JStr(task.objective)), Member("start_url", JStr(task.startUrl))];
    var members := [Member("task", JObj(fields)), Member("is_public", JBool(isPublic))];
    assert "objective"[0] != "start_url"[0];
    assert Get(fields, "start_url") == Get(fields[1..], "start_url");
    assert fields[1..] == [Member("start_url", JStr(task.startUrl))];
    assert Get(members, "is_public") == Get(members[1..], "is_public");
    assert members[1..] == [Member("is_public", JBool(isPublic))];
    JObj(members)
  }

  const AgentsPath := "/api/v1/agents/"
  const TrajectoriesPath := "/trajectories"

  /** `{AGENT_PLATFORM_URL}/api/v1/agents/{AGENT_NAME}/trajectories`. */
  function AgentUrl(config: AgentConfig): (url: string)
    ensures IsPrefix(config.platformUrl + AgentsPath, url)
    ensures IsSuffixOf(TrajectoriesPath, url)
    ensures |url| == |config.platformUrl| + |AgentsPath| + |config.agentName| + |TrajectoriesPath|
    ensures url[|config.platformUrl| + |AgentsPath|..|url| - |TrajectoriesPath|] == config.agentName
  {
    config.platformUrl + AgentsPath + config.agentName + TrajectoriesPath
  }

  /** The headers named by the activity. */
  predicate KnownHeader(key: string) {
    key == "Content-Type" || key == "Authorization" || key == "X-User-Sub" || key == "X-User-Org"
  }

  /**
   * The request headers: `Content-Type` always; `Authorization`,
   * `X-User-Sub` and `X-User-Org` each exactly when its setting is non-empty.
   */
  function HeadersFor(config: AgentConfig): (h: map<string, string>)
    ensures "Content-Type" in h && h["Content-Type"] == "application/json"
    ensures "Authorization" in h <==> config.apiToken != ""
    ensures "Authorization" in h ==> h["Authorization"] == "Bearer " + config.apiToken
    ensures "X-User-Sub" in h <==> config.userSub != ""
    ensures "X-User-Sub" in h ==> h["X-User-Sub"] == config.userSub
    ensures "X-User-Org" in h <==> config.userOrg != ""
    ensures "X-User-Org" in h ==> h["X-User-Org"] == config.userOrg
    ensures forall key :: key in h ==> KnownHeader(key)
  {
    var base := map["Content-Type" := "application/json"];
    var withToken := if config.apiToken != "" then base["Authorization" := "Bearer " + config.apiToken] else base;
    var withSub := if config.userSub != "" then withToken["X-User-Sub" := config.userSub] else withToken;
    if config.userOrg != "" then withSub["X-User-Org" := config.userOrg] else withSub
  }

  /** The header dict built by conditional insertions, as the activity does. */
  method BuildHeaders(config: AgentConfig) returns (headers: map<string, string>)
    ensures headers == HeadersFor(config)
  {
    headers := map["Content-Type" := "application/json"];
    if config.apiToken != "" {
      headers := headers["Authorization" := "Bearer " + config.apiToken];
    }
    if config.userSub != "" {
      headers := headers["X-User-Sub" := config.userSub];
    }
    if config.userOrg != "" {
      headers := headers["X-User-Org" := config.userOrg];
    }
  }

  /** `response.is_success`: a 2xx status, the only one `raise_for_status` lets through. */
  predicate IsSuccess(outcome: HttpOutcome) {
    outcome.Responded? && 200 <= outcome.status < 300
  }

  /**
   * The activity's result for an outcome: `{"success": True, "result": body}`
   * for a 2xx response, `{"success": False, "error": str(e)}` for any httpx
   * error. None when an exception that is not an `httpx.HTTPError` leaves
   * the activity: `response.json()` on a 2xx body that is not JSON, or an
   * exception outside httpx's error hierarchy raised by the request.
   */
  function ClassifyResponse(outcome: HttpOutcome, describe: Describe): (r: Option<Json>)
    ensures r.None? <==> (IsSuccess(outcome) && outcome.body.None?) || outcome.OtherException?
    ensures r.Some? ==> r.value.JObj? && Get(r.value.members, "success") == Some(JBool(IsSuccess(outcome)))
    ensures r.Some? && IsSuccess(outcome) ==>
              Get(r.value.members, "result") == outcome.body && !HasKey(r.value.members, "error")
    ensures !IsSuccess(outcome) && !outcome.OtherException? ==>
              r.Some? && Get(r.value.members, "error") == Some(JStr(describe(outcome)))
              && !HasKey(r.value.members, "result")
  {
    if outcome.OtherException? then None
    else if IsSuccess(outcome) then
      match outcome.body
      case None => None
      case Some(result) => Some(JObj([Member("success", JBool(true)), Member("result", result)]))
    else Some(JObj([Member("success", JBool(false)), Member("error", JStr(describe(outcome)))]))
  }

  /**
   * `launch_agent(task, is_public)`: builds the request, posts it, and
   * classifies the outcome.
   */
  method LaunchAgent(task: Task, isPublic: bool, config: AgentConfig,
                     send: Request -> HttpOutcome, describe: Describe)
    returns (request: Request, result: Option<Json>)
    ensures request == Request(AgentUrl(config), Payload(task, isPublic), HeadersFor(config))
    ensures result == ClassifyResponse(send(request), describe)
  {
    var payload := Payload(task, isPublic);
    var url := AgentUrl(config);
    var headers := BuildHeaders(config);
    request := Request(url, payload, headers);
    var response := send(request);
    result := ClassifyResponse(response, describe);
  }
}

=== FILE: database.dfy ===
/**
 * `TrajectoryDatabase.get_similar_trajectory`: the tenant gate, the candidate
 * query, the event query and the formatting loop, inside the exception
 * handling that turns most failures into "no trajectory".
 *
 * The database is an input: the rows of the `trajectory` table (each with its
 * events) and, for each of the two queries, whether issuing it raises. The
 * `CREATE EXTENSION` statement that precedes the gate is not modelled: its
 * failure is swallowed; a transaction it aborts appears as a failure of the
 * candidate query.
 */
module TrajectoryDatabase {
  import opened Wrappers
  import opened Text
  import opened Json
  import opened TrajectoryStore
  import opened TrajectoryFormat

  /** An exception raised while a query runs: SQLAlchemy's `ProgrammingError`, or any other. */
  datatype DbError = ProgrammingError(message: string) | OtherError(message: string)

  /** The stored trajectories, and the exception each query raises, if any, when issued. */
  datatype Database = Database(
    trajectories: seq<Trajectory>,
    candidateFailure: Option<DbError>,
    eventsFailure: Option<DbError>)

  /** How a call ends: it returns a (possibly absent) text, or an exception leaves it. */
  datatype Lookup = Returned(trajectory: Option<string>) | Escaped(error: DbError)

  /**
   * The two `except` clauses: a `ProgrammingError` that does not say
   * "does not exist" is raised again; every other exception gives None.
   */
  function Recover(e: DbError): (r: Lookup)
    ensures r.Escaped? <==> e.ProgrammingError? && !Contains(e.message, "does not exist")
    ensures r.Escaped? ==> r.error == e
    ensures r.Returned? ==> r.trajectory.None?
  {
    if e.ProgrammingError? && !Contains(e.message, "does not exist") then Escaped(e)
    else Returned(None)
  }

  /** The rows of the event query as the loop reads them: `tool_req` and `result` of each event. */
  function EventRows(t: Trajectory): (r: seq<EventRow>)
    ensures var events := EventQuery(t);
      && |r| == |events|
      && forall k :: 0 <= k < |r| ==>
           r[k].toolReq == Field(events[k].event, "tool_req") && r[k].toolResult == Field(events[k].event, "result")
  {
    var events := EventQuery(t);
    seq(|events|, k requires 0 <= k < |events| =>
      EventRow(Field(events[k].event, "tool_req"), Field(events[k].event, "result")))
  }

  /** The parameters bound into the candidate query for an admitted organisation. */
  function CandidateQuery(objective: string, startUrl: string, orgId: Option<string>): Query
    requires orgId.Some?
  {
    Query(objective, startUrl, orgId.value)
  }

  /** What `get_similar_trajectory(objective, start_url, org_id)` does. */
  function SimilarTrajectory(objective: string, startUrl: string, orgId: Option<string>,
                             db: Database, similarity: Similarity, loads: Loads): (r: Lookup)
    ensures !OrgAdmissible(orgId) ==> r == Returned(None)
    ensures r.Escaped? ==> r.error.ProgrammingError? && !Contains(r.error.message, "does not exist")
    ensures (OrgAdmissible(orgId) && db.candidateFailure.None?
             && forall t :: t in db.trajectories ==> !Qualifies(t, CandidateQuery(objective, startUrl, orgId), similarity))
            ==> r == Returned(None)
    ensures OrgAdmissible(orgId) && db.candidateFailure.Some? ==> r == Recover(db.candidateFailure.value)
    ensures (OrgAdmissible(orgId) && db.candidateFailure.None?
             && BestCandidate(db.trajectories, CandidateQuery(objective, startUrl, orgId), similarity).Some?
             && db.eventsFailure.Some?)
            ==> r == Recover(db.eventsFailure.value)
  {
    if !OrgAdmissible(orgId) then Returned(None)
    else if db.candidateFailure.Some? then Recover(db.candidateFailure.value)
    else match BestCandidate(db.trajectories, CandidateQuery(objective, startUrl, orgId), similarity)
      case None => Returned(None)
      case Some(t) =>
        if db.eventsFailure.Some? then Recover(db.eventsFailure.value)
        else
          var rows := EventRows(t);
          if |rows| == 0 then Returned(None)
          else Returned(FormattedText(rows, loads))
  }

  /** `get_similar_trajectory`, step by step as the source runs it. */
  method GetSimilarTrajectory(objective: string, startUrl: string, orgId: Option<string>,
                              db: Database, similarity: Similarity, loads: Loads) returns (r: Lookup)
    ensures r == SimilarTrajectory(objective, startUrl, orgId, db, similarity, loads)
  {
    if orgId.None? || orgId.value == "" {
      return Returned(None);
    }
    if orgId.value in Placeholders {
      return Returned(None);
    }
    assert OrgAdmissible(orgId);
    if db.candidateFailure.Some? {
      return Recover(db.candidateFailure.value);
    }
    var q := Query(objective, startUrl, orgId.value);
    assert q == CandidateQuery(objective, startUrl, orgId);
    var best := BestCandidate(db.trajectories, q, similarity);
    if best.None? {
      return Returned(None);
    }
    if db.eventsFailure.Some? {
      return Recover(db.eventsFailure.value);
    }
    var rows := EventRows(best.value);
    if |rows| == 0 {
      return Returned(None);
    }
    var text := FormatSteps(rows, loads);
    assert text == FormattedText(rows, loads);
    return Returned(text);
  }

  /**
   * A returned text comes from the organisation asked for: it is the
   * formatted events of a stored trajectory of that organisation that meets
   * every filter and that no other qualifying trajectory outranks.
   */
  lemma TenantIsolation(objective: string, startUrl: string, orgId: Option<string>,
                        db: Database, similarity: Similarity, loads: Loads)
    ensures var r := SimilarTrajectory(objective, startUrl, orgId, db, similarity, loads);
      r.Returned? && r.trajectory.Some? ==>
        && OrgAdmissible(orgId)
        && exists t :: (
          && t in db.trajectories && t.orgId == orgId
          && Qualifies(t, CandidateQuery(objective, startUrl, orgId), similarity)
          && (forall u :: u in db.trajectories && Qualifies(u, CandidateQuery(objective, startUrl, orgId), similarity)
                          ==> !Outranks(u, t, CandidateQuery(objective, startUrl, orgId), similarity))
          && r.trajectory == FormattedText(EventRows(t), loads))
  {
    var r := SimilarTrajectory(objective, startUrl, orgId, db, similarity, loads);
    if r.Returned? && r.trajectory.Some? {
      assert OrgAdmissible(orgId) && db.candidateFailure.None? && db.eventsFailure.None?;
      var q := CandidateQuery(objective, startUrl, orgId);
      var best := BestCandidate(db.trajectories, q, similarity);
      assert best.Some?;
      var t := best.value;
      assert r.trajectory == FormattedText(EventRows(t), loads);
      assert t in db.trajectories && t.orgId == orgId;
    }
  }

  /**
   * A trajectory that passes the candidate query always has events to
   * format: the validated answer that qualified it is itself a tool result.
   * So the "no events" return is reached only if the rows change between the
   * two queries.
   */
  lemma QualifiedHasEvents(t: Trajectory, q: Query, similarity: Similarity)
    requires Qualifies(t, q, similarity)
    ensures |EventRows(t)| > 0
  {
    var i :| 0 <= i < |t.events| && IsValidatedAnswer(t.events[i]);
    assert t.events[i] in EventQuery(t);
  }

  /**
   * When both queries succeed and some trajectory qualifies, the call
   * returns: the formatted text, or None when the loop raised.
   */
  lemma FoundReturnsText(objective: string, startUrl: string, orgId: Option<string>,
                         db: Database, similarity: Similarity, loads: Loads)
    requires OrgAdmissible(orgId) && db.candidateFailure.None? && db.eventsFailure.None?
    requires exists t :: t in db.trajectories && Qualifies(t, CandidateQuery(objective, startUrl, orgId), similarity)
    ensures SimilarTrajectory(objective, startUrl, orgId, db, similarity, loads).Returned?
    ensures (SimilarTrajectory(objective, startUrl, orgId, db, similarity, loads).trajectory.None?
             <==> Raises(Outcomes(EventRows(BestCandidate(db.trajectories,
                    CandidateQuery(objective, startUrl, orgId), similarity).value), loads)))
  {
    var q := CandidateQuery(objective, startUrl, orgId);
    QualifiedHasEvents(BestCandidate(db.trajectories, q, similarity).value, q, similarity);
  }
}

=== FILE: formatter.dfy ===
/**
 * Turning a trajectory's tool-result events into numbered steps, and wrapping
 * those steps in the replay instructions.
 *
 * Each event row is classified on its own (`Classify`): skipped, rendered as
 * one step, or raising a Python exception (a value of an unexpected type
 * reaching `.get`, `.replace`, `in`, `[...]` or `dict(...)`). The loop
 * (`FormatSteps`) numbers the rendered steps from 1 and joins them with line
 * breaks; the first raising row abandons the whole loop.
 *
 * `json.loads` is a parameter: `None` stands for `json.JSONDecodeError`.
 */
module TrajectoryFormat {
  import opened Wrappers
  import opened Text
  import opened Json

  /** A row of the event query as the loop unpacks it: `tool_req` and `tool_result`. */
  datatype EventRow = EventRow(toolReq: Json, toolResult: Json)

  /** A rendered step: the simplified tool name and the action details. */
  datatype Step = Step(name: string, details: seq<Member>)

  /** What the loop body does with one row. */
  datatype EventOutcome = Skipped | Emitted(step: Step) | Raised

  /** `json.loads`: the decoded value, or None for a decode error. */
  type Loads = string -> Option<Json>

  // ---------------------------------------------------------------------------
  // Reading the request and the result of one event

  /** `tool_req` after the falsy check and the decoding of a string; None means the row is skipped. */
  function DecodeRequest(req: Json, loads: Loads): (r: Option<Json>)
    ensures r.None? <==> !Truthy(req) || (req.JStr? && loads(req.s).None?)
    ensures Truthy(req) && !req.JStr? ==> r == Some(req)
    ensures Truthy(req) && req.JStr? ==> r == loads(req.s)
  {
    if !Truthy(req) then None
    else if req.JStr? then loads(req.s)
    else Some(req)
  }

  /** `tool_result` after decoding a string; a string that does not decode becomes None (JNull). */
  function DecodeResult(res: Json, loads: Loads): (r: Json)
    ensures !res.JStr? ==> r == res
    ensures res.JStr? && loads(res.s).None? ==> r == JNull
    ensures res.JStr? && loads(res.s).Some? ==> r == loads(res.s).value
  {
    if res.JStr? then loads(res.s).GetOr(JNull) else res
  }

  /**
   * `req.get("tool_name", "unknown") if req else "unknown"`; None when `req`
   * is truthy but not a dict, which has no `.get` (AttributeError).
   */
  function ToolName(req: Json): (r: Option<Json>)
    ensures r.None? <==> Truthy(req) && !req.JObj?
    ensures !Truthy(req) || (req.JObj? && !HasKey(req.members, "tool_name")) ==> r == Some(JStr("unknown"))
    ensures req.JObj? && HasKey(req.members, "tool_name") ==> r == Get(req.members, "tool_name")
  {
    if !Truthy(req) then Some(JStr("unknown"))
    else if req.JObj? then Some(Get(req.members, "tool_name").GetOr(JStr("unknown")))
    else None
  }

  /** `req.get("args", {}) if req else {}`, for a `req` that `ToolName` accepted. */
  function ToolArgs(req: Json): (r: Json)
    ensures req.JObj? && HasKey(req.members, "args") ==> r == Get(req.members, "args").value
    ensures !(req.JObj? && HasKey(req.members, "args")) ==> r == JObj([])
  {
    if Truthy(req) && req.JObj? then Get(req.members, "args").GetOr(JObj([])) else JObj([])
  }

  /**
   * `dict(args)`: a copy of a dict; an empty list or empty string gives an
   * empty dict; anything else raises (None).
   */
  function CopyArgs(args: Json): (r: Option<seq<Member>>)
    ensures args.JObj? ==> r == Some(args.members)
    ensures r.Some? && !args.JObj? ==> r.value == []
  {
    match args
    case JObj(members) => Some(members)
    case JArr(items) => if |items| == 0 then Some([]) else None
    case JStr(s) => if |s| == 0 then Some([]) else None
    case _ => None
  }

  /** `name.replace("_localizer_web", "").replace("_web", "")`. */
  function SimplifyName(name: string): (r: string)
    ensures |r| <= |name|
  {
    RemoveAll(RemoveAll(name, "_localizer_web"), "_web")
  }

  /**
   * A name comes back unchanged exactly when it holds no `_web`: the longer
   * suffix `_localizer_web` holds `_web` itself.
   */
  lemma SimplifyNameUnchanged(name: string)
    ensures SimplifyName(name) == name <==> !Contains(name, "_web")
  {
    var m := RemoveAll(name, "_localizer_web");
    assert "_localizer_web"[10..14] == "_web";
    ContainsPiece(name, "_localizer_web", 10, "_web");
    RemoveAllShrinks(name, "_localizer_web");
    RemoveAllUnchanged(name, "_localizer_web");
    RemoveAllUnchanged(m, "_web");
  }

  // ---------------------------------------------------------------------------
  // Enriching the action details from the result

  /** The keys the enrichment may write. */
  predicate IsEnrichedKey(k: string) {
    k == "coordinates" || k == "viewport_size" || k == "element"
  }

  /** `d` starts with the keys of `base`, in the same order. */
  predicate KeepsKeyOrder(base: seq<Member>, d: seq<Member>) {
    |d| >= |base| && forall i :: 0 <= i < |base| ==> d[i].key == base[i].key
  }

  /**
   * The point a result dict offers: `{"x": .., "y": ..}` taken from a
   * `localizer_output` dict holding both keys.
   */
  function LocalizerPoint(res: Json): Option<Json> {
    if !res.JObj? then None
    else match Get(res.members, "localizer_output")
      case None => None
      case Some(lo) =>
        if lo.JObj? && HasKey(lo.members, "x") && HasKey(lo.members, "y")
        then Some(JObj([Member("x", Get(lo.members, "x").value), Member("y", Get(lo.members, "y").value)]))
        else None
  }

  /** A result dict whose `localizer_output`, if present, is a dict. */
  predicate WellShapedResult(res: Json) {
    res.JObj? && (var lo := Get(res.members, "localizer_output"); lo.None? || lo.value.JObj?)
  }

  /** The `coordinates` step; None when Python raises. */
  function AddCoordinates(details: seq<Member>, res: Json): (r: Option<seq<Member>>)
    ensures r.Some? ==> forall k :: k != "coordinates" ==> Get(r.value, k) == Get(details, k)
    ensures r.Some? ==> (Get(r.value, "coordinates") ==
      if LocalizerPoint(res).Some? then LocalizerPoint(res) else Get(details, "coordinates"))
    ensures r.Some? ==> KeepsKeyOrder(details, r.value)
    ensures !Truthy(res) ==> r == Some(details)
    ensures WellShapedResult(res) ==> r.Some?
  {
    if !Truthy(res) then Some(details)
    else match PyIn("localizer_output", res)
      case None => None
      case Some(found) =>
        if !found then Some(details)
        else match PyIndex(res, "localizer_output")
          case None => None
          case Some(lo) =>
            match PyIn("x", lo)
            case None => None
            case Some(hasX) =>
              if !hasX || PyIn("y", lo) != Some(true) then Some(details)
              else match (PyIndex(lo, "x"), PyIndex(lo, "y"))
                case (Some(x), Some(y)) =>
                  Some(Put(details, "coordinates", JObj([Member("x", x), Member("y", y)])))
                case _ => None
  }

  /** The `viewport_size` step; None when Python raises. */
  function AddViewport(details: seq<Member>, res: Json): (r: Option<seq<Member>>)
    ensures r.Some? ==> forall k :: k != "viewport_size" ==> Get(r.value, k) == Get(details, k)
    ensures r.Some? ==> (Get(r.value, "viewport_size") ==
      if res.JObj? && HasKey(res.members, "viewport_size") then Get(res.members, "viewport_size")
      else Get(details, "viewport_size"))
    ensures r.Some? ==> KeepsKeyOrder(details, r.value)
    ensures !Truthy(res) ==> r == Some(details)
    ensures res.JObj? ==> r.Some?
  {
    if !Truthy(res) then Some(details)
    else match PyIn("viewport_size", res)
      case None => None
      case Some(found) =>
        if !found then Some(details)
        else match PyIndex(res, "viewport_size")
          case None => None
          case Some(v) => Some(Put(details, "viewport_size", v))
  }

  /** The `element` step, which never overwrites an `element` already present; None when Python raises. */
  function AddElement(details: seq<Member>, res: Json): (r: Option<seq<Member>>)
    ensures r.Some? ==> forall k :: k != "element" ==> Get(r.value, k) == Get(details, k)
    ensures r.Some? ==> (Get(r.value, "element") ==
      if !HasKey(details, "element") && res.JObj? && HasKey(res.members, "element")
      then Get(res.members, "element")
      else Get(details, "element"))
    ensures r.Some? ==> KeepsKeyOrder(details, r.value)
    ensures !Truthy(res) ==> r == Some(details)
    ensures res.JObj? ==> r.Some?
  {
    if !Truthy(res) then Some(details)
    else match PyIn("element", res)
      case None => None
      case Some(found) =>
        if !found || HasKey(details, "element") then Some(details)
        else match PyIndex(res, "element")
          case None => None
          case Some(v) => Some(Put(details, "element", v))
  }

  /**
   * The action details: a copy of the args, then `coordinates`,
   * `viewport_size` and `element` from the result. None when Python raises.
   */
  function EnrichDetails(args: seq<Member>, res: Json): (r: Option<seq<Member>>)
    ensures r.Some? ==> KeepsKeyOrder(args, r.value)
    ensures !Truthy(res) ==> r == Some(args)
    ensures WellShapedResult(res) ==> r.Some?
  {
    match AddCoordinates(args, res)
    case None => None
    case Some(d1) =>
      match AddViewport(d1, res)
      case None => None
      case Some(d2) => AddElement(d2, res)
  }

  /** The enrichment touches only its three keys: every other key keeps its value from the args. */
  lemma EnrichDetailsKeepsArgs(args: seq<Member>, res: Json)
    requires EnrichDetails(args, res).Some?
    ensures forall k :: !IsEnrichedKey(k) ==> Get(EnrichDetails(args, res).value, k) == Get(args, k)
  {
    var d1 := AddCoordinates(args, res).value;
    var d2 := AddViewport(d1, res).value;
    assert forall k :: !IsEnrichedKey(k) ==> Get(d2, k) == Get(args, k);
  }

  /**
   * `coordinates` comes from a localizer point holding both `x` and `y`;
   * without one, it is whatever the args held.
   */
  lemma EnrichDetailsCoordinates(args: seq<Member>, res: Json)
    requires EnrichDetails(args, res).Some?
    ensures Get(EnrichDetails(args, res).value, "coordinates") ==
      if LocalizerPoint(res).Some? then LocalizerPoint(res) else Get(args, "coordinates")
  {
    var d1 := AddCoordinates(args, res).value;
    var d2 := AddViewport(d1, res).value;
    var r := AddElement(d2, res).value;
    assert EnrichDetails(args, res).value == r;
    assert Get(r, "coordinates") == Get(d2, "coordinates");
    assert Get(d2, "coordinates") == Get(d1, "coordinates");
  }

  /** `viewport_size` is copied from the result when it has one; otherwise it is whatever the args held. */
  lemma EnrichDetailsViewport(args: seq<Member>, res: Json)
    requires EnrichDetails(args, res).Some?
    ensures Get(EnrichDetails(args, res).value, "viewport_size") ==
      if res.JObj? && HasKey(res.members, "viewport_size") then Get(res.members, "viewport_size")
      else Get(args, "viewport_size")
  {
    var d1 := AddCoordinates(args, res).value;
    var d2 := AddViewport(d1, res).value;
    var r := AddElement(d2, res).value;
    assert EnrichDetails(args, res).value == r;
    assert Get(r, "viewport_size") == Get(d2, "viewport_size");
    assert Get(d1, "viewport_size") == Get(args, "viewport_size");
  }

  /** `element` is taken from the result only when the args had none. */
  lemma EnrichDetailsElement(args: seq<Member>, res: Json)
    requires EnrichDetails(args, res).Some?
    ensures Get(EnrichDetails(args, res).value, "element") ==
      if !HasKey(args, "element") && res.JObj? && HasKey(res.members, "element")
      then Get(res.members, "element")
      else Get(args, "element")
  {
    var d1 := AddCoordinates(args, res).value;
    var d2 := AddViewport(d1, res).value;
    assert EnrichDetails(args, res) == AddElement(d2, res);
    assert Get(d2, "element") == Get(d1, "element") == Get(args, "element");
  }

  // ---------------------------------------------------------------------------
  // One event

  /** The tool name the loop reads from a row; None when the row is skipped before or raises while reading it. */
  function RequestedName(row: EventRow, loads: Loads): Option<Json> {
    match DecodeRequest(row.toolReq, loads)
    case None => None
    case Some(req) => ToolName(req)
  }

  /** The body of the loop for one row. */
  function Classify(row: EventRow, loads: Loads): (o: EventOutcome)
    ensures !Truthy(row.toolReq) ==> o == Skipped
    ensures row.toolReq.JStr? && Truthy(row.toolReq) && loads(row.toolReq.s).None? ==> o == Skipped
    ensures (var n := RequestedName(row, loads); n.Some? && n.value.JStr? && Contains(n.value.s, "answer"))
            ==> o == Skipped
    ensures o.Emitted? ==>
      var n := RequestedName(row, loads);
      n.Some? && n.value.JStr? && !Contains(n.value.s, "answer") && o.step.name == SimplifyName(n.value.s)
    ensures o.Emitted? ==>
      && DecodeRequest(row.toolReq, loads).Some?
      && var req := DecodeRequest(row.toolReq, loads).value;
         && CopyArgs(ToolArgs(req)).Some?
         && var res := DecodeResult(row.toolResult, loads);
            && EnrichDetails(CopyArgs(ToolArgs(req)).value, res).Some?
            && o.step.details == EnrichDetails(CopyArgs(ToolArgs(req)).value, res).value
  {
    match DecodeRequest(row.toolReq, loads)
    case None => Skipped
    case Some(req) =>
      var res := DecodeResult(row.toolResult, loads);
      match ToolName(req)
      case None => Raised
      case Some(name) =>
        match PyIn("answer", name)
        case None => Raised
        case Some(isAnswer) =>
          if isAnswer then Skipped
          else if !name.JStr? then Raised
          else match CopyArgs(ToolArgs(req))
            case None => Raised
            case Some(args) =>
              match EnrichDetails(args, res)
              case None => Raised
              case Some(details) => Emitted(Step(SimplifyName(name.s), details))
  }

  /**
   * A row is rendered whenever nothing in it makes Python raise: a request
   * dict naming a tool without `answer`, a dict of args, and a result that is
   * falsy or a dict whose `localizer_output`, if any, is a dict. The step
   * carries the simplified name and the args enriched from the result.
   */
  lemma ClassifyEmits(row: EventRow, loads: Loads, req: seq<Member>, name: string, args: seq<Member>)
    requires DecodeRequest(row.toolReq, loads) == Some(JObj(req))
    requires Get(req, "tool_name") == Some(JStr(name)) && !Contains(name, "answer")
    requires Get(req, "args") == Some(JObj(args))
    requires !row.toolResult.JStr?
    requires !Truthy(row.toolResult) || WellShapedResult(row.toolResult)
    ensures EnrichDetails(args, row.toolResult).Some?
    ensures Classify(row, loads) == Emitted(Step(SimplifyName(name), EnrichDetails(args, row.toolResult).value))
  {
    assert ToolName(JObj(req)) == Some(JStr(name));
    assert PyIn("answer", JStr(name)) == Some(false);
    assert CopyArgs(ToolArgs(JObj(req))) == Some(args);
    assert DecodeResult(row.toolResult, loads) == row.toolResult;
  }

  // ---------------------------------------------------------------------------
  // The loop

  /** `f"{n}. {name}({json.dumps(details)})"`. */
  function Line(n: nat, step: Step): (r: string)
    ensures IsPrefix(NatToString(n) + ". " + step.name + "(", r)
    ensures r[|r| - 1] == ')'
    ensures r[|NatToString(n) + ". " + step.name + "("|..|r| - 1] == Dumps(JObj(step.details))
  {
    NatToString(n) + ". " + step.name + "(" + Dumps(JObj(step.details)) + ")"
  }

  /** The loop body applied to every row. */
  function Outcomes(rows: seq<EventRow>, loads: Loads): (outs: seq<EventOutcome>)
    ensures |outs| == |rows|
  {
    seq(|rows|, i requires 0 <= i < |rows| => Classify(rows[i], loads))
  }

  /** The positions of the rows that produce a step, in ascending order. */
  function Kept(outs: seq<EventOutcome>): (idx: seq<nat>)
    ensures forall k :: 0 <= k < |idx| ==> idx[k] < |outs| && outs[idx[k]].Emitted?
    ensures forall k, l :: 0 <= k < l < |idx| ==> idx[k] < idx[l]
    ensures forall i :: 0 <= i < |outs| && outs[i].Emitted? ==> i in idx
    decreases |outs|
  {
    if |outs| == 0 then []
    else
      var n := |outs| - 1;
      var prev := Kept(outs[..n]);
      if outs[n].Emitted? then prev + [n] else prev
  }

  /** The k-th kept row becomes line k + 1. */
  function NumberedLines(outs: seq<EventOutcome>): seq<string> {
    var idx := Kept(outs);
    seq(|idx|, k requires 0 <= k < |idx| => Line(k + 1, outs[idx[k]].step))
  }

  /** Some row makes the loop raise. */
  predicate Raises(outs: seq<EventOutcome>) {
    exists i :: 0 <= i < |outs| && outs[i].Raised?
  }

  /** The loop's result: the joined lines, or None when it raises. */
  function FormattedText(rows: seq<EventRow>, loads: Loads): (r: Option<string>)
    ensures r.Some? && |Kept(Outcomes(rows, loads))| == 0 ==> r.value == ""
  {
    var outs := Outcomes(rows, loads);
    if Raises(outs) then None else Some(Join(NumberedLines(outs), "\n"))
  }

  /** One more row adds at most one line, numbered after the lines before it. */
  lemma NumberedLinesSnoc(outs: seq<EventOutcome>, i: nat)
    requires i < |outs|
    ensures NumberedLines(outs[..i + 1]) ==
      NumberedLines(outs[..i])
      + match outs[i]
        case Emitted(step) => [Line(|NumberedLines(outs[..i])| + 1, step)]
        case _ => []
  {
    var pre, ext := outs[..i], outs[..i + 1];
    assert ext[..i] == pre;
    var idx := Kept(pre);
    var idx' := Kept(ext);
    assert idx' == if outs[i].Emitted? then idx + [i] else idx;
    var lines, lines' := NumberedLines(pre), NumberedLines(ext);
    forall k | 0 <= k < |lines| ensures lines'[k] == lines[k] {
      assert idx'[k] == idx[k];
      assert ext[idx[k]] == pre[idx[k]];
    }
    if outs[i].Emitted? {
      assert lines'[|lines|] == Line(|lines| + 1, ext[i].step);
      assert lines' == lines + [Line(|lines| + 1, outs[i].step)];
    } else {
      assert lines' == lines;
    }
  }

  /** One more row raises only if that row does. */
  lemma RaisesSnoc(outs: seq<EventOutcome>, i: nat)
    requires i < |outs|
    ensures Raises(outs[..i + 1]) <==> Raises(outs[..i]) || outs[i].Raised?
  {
    var pre, ext := outs[..i], outs[..i + 1];
    if Raises(ext) {
      var j :| 0 <= j < |ext| && ext[j].Raised?;
      if j < i {
        assert pre[j] == ext[j];
      }
    }
    if Raises(pre) {
      var j :| 0 <= j < |pre| && pre[j].Raised?;
      assert ext[j] == pre[j];
    }
    if outs[i].Raised? {
      assert ext[i] == outs[i];
    }
  }

  /** The formatting loop of `get_similar_trajectory`. */
  method FormatSteps(rows: seq<EventRow>, loads: Loads) returns (r: Option<string>)
    ensures r.None? <==> Raises(Outcomes(rows, loads))
    ensures r.Some? ==> r.value == Join(NumberedLines(Outcomes(rows, loads)), "\n")
  {
    ghost var outs := Outcomes(rows, loads);
    var steps: seq<string> := [];
    var stepNum: nat := 1;
    for i := 0 to |rows|
      invariant steps == NumberedLines(outs[..i])
      invariant stepNum == |steps| + 1
      invariant !Raises(outs[..i])
    {
      var outcome := Classify(rows[i], loads);
      assert outcome == outs[i];
      NumberedLinesSnoc(outs, i);
      RaisesSnoc(outs, i);
      match outcome
      case Skipped =>
      case Raised =>
        assert Raises(outs) by {
          assert 0 <= i < |outs| && outs[i].Raised?;
        }
        return None;
      case Emitted(step) =>
        steps := steps + [Line(stepNum, step)];
        stepNum := stepNum + 1;
    }
    assert outs[..|rows|] == outs;
    return Some(Join(steps, "\n"));
  }

  /** A step renders on one line when its name has no line break. */
  lemma LineIsOneLine(n: nat, step: Step)
    requires '\n' !in step.name
    ensures '\n' !in Line(n, step) && |Line(n, step)| > 0
  {
    DumpsIsOneLine(JObj(step.details));
  }

  /** Every rendered step has a name without line breaks. */
  predicate NamesOnOneLine(outs: seq<EventOutcome>) {
    forall i :: 0 <= i < |outs| && outs[i].Emitted? ==> '\n' !in outs[i].step.name
  }

  /**
   * Read back line by line, the loop's text is exactly its numbered steps:
   * one line per rendered row, line k + 1 showing the k-th rendered step,
   * and no text at all when no row is rendered. This needs names without
   * line breaks; `json.dumps` never produces one.
   */
  lemma FormattedTextLines(outs: seq<EventOutcome>)
    requires NamesOnOneLine(outs)
    ensures Join(NumberedLines(outs), "\n") == "" <==> |Kept(outs)| == 0
    ensures |Kept(outs)| > 0 ==> SplitLines(Join(NumberedLines(outs), "\n")) == NumberedLines(outs)
  {
    var lines := NumberedLines(outs);
    LinesOnOneLine(outs);
    if |lines| > 0 {
      SplitJoin(lines);
      JoinNonEmpty(lines, "\n");
    }
  }

  /** The loop's text is empty exactly when no row is rendered, whatever the names hold. */
  lemma FormattedTextEmpty(outs: seq<EventOutcome>)
    ensures Join(NumberedLines(outs), "\n") == "" <==> |Kept(outs)| == 0
  {
    var lines := NumberedLines(outs);
    if |lines| > 0 {
      assert |lines[0]| > 0;
      JoinNonEmpty(lines, "\n");
    }
  }

  /** Each numbered line is a non-empty line. */
  lemma LinesOnOneLine(outs: seq<EventOutcome>)
    requires NamesOnOneLine(outs)
    ensures forall k :: 0 <= k < |NumberedLines(outs)| ==>
              '\n' !in NumberedLines(outs)[k] && |NumberedLines(outs)[k]| > 0
  {
    var idx := Kept(outs);
    var lines := NumberedLines(outs);
    forall k | 0 <= k < |lines| ensures '\n' !in lines[k] && |lines[k]| > 0 {
      LineIsOneLine(k + 1, outs[idx[k]].step);
    }
  }
}

=== FILE: instructions.dfy ===
/**
 * `format_trajectory_as_instructions`: the directive put in front of a
 * formatted trajectory before it is appended to an agent's objective.
 */
module Instructions {
  import opened Text

  /** The text whose presence marks a trajectory as already formatted. */
  const Marker := "## Similar Trajectory"

  // The header's lines, exactly as the source appends them. Longer lines are
  // written as a few concatenated pieces only to keep the verifier's work on
  // each literal small; the text is unchanged.
  const HeaderTitle := "\n# CRITICAL: Execute the " + "reference trajectory EXACTLY\n\n"
  const HeaderWarning := "\U{26A0}\U{FE0F} DO NOT answer or make " + "assumptions before executing " + "ALL trajectory steps.\n\n"
  const HeaderMust := "You MUST:\n"
  const HeaderRule1 := "1. Execute EVERY step from " + "the trajectory below with " + "the provided coordinates\n"
  const HeaderRule2 := "2. Use multiple tool_calls " + "in a SINGLE response to run " + "many steps at once\n"
  const HeaderRule3 := "3. Wait for observations " + "before answering\n"
  const HeaderRule4 := "4. ONLY answer after " + "completing the trajectory " + "and seeing the actual data\n\n"
  const HeaderReference := "## Reference Trajectory " + "(execute with exact " + "coordinates):\n\n"

  /** The lines of the fixed directive, in the order the source appends them. */
  const HeaderLines := [HeaderTitle, HeaderWarning, HeaderMust, HeaderRule1, HeaderRule2,
                        HeaderRule3, HeaderRule4, HeaderReference]

  /** The fixed directive put in front of the steps: its lines, one after the other. */
  const Header := Join(HeaderLines, "")

  /**
   * `format_trajectory_as_instructions`: nothing for an empty trajectory,
   * the text itself when it already carries the marker, and otherwise the
   * header followed by the text.
   */
  function FormatTrajectoryAsInstructions(trajectory: string): (r: string)
    ensures IsSuffixOf(trajectory, r)
    ensures r == "" <==> trajectory == ""
    ensures Contains(trajectory, Marker) ==> r == trajectory
  {
    if trajectory == "" then ""
    else if Contains(trajectory, Marker) then trajectory
    else
      SuffixOfAppend(Header, trajectory, trajectory);
      Header + trajectory
  }

  /** A text that misses one of the marker's characters does not hold the marker. */
  lemma LineLacksMarker(line: string, c: char)
    requires c == 'S' || c == 'j'
    requires c !in line
    ensures !Contains(line, Marker)
  {
    ContainsChars(line, Marker, c);
  }

  /** A complete line: non-empty and ended by a line break. */
  predicate IsLine(s: string) {
    |s| > 0 && s[|s| - 1] == '\n'
  }

  /** Lines none of which holds the marker make a text that does not hold it either. */
  lemma {:induction false} LinesLackMarker(lines: seq<string>)
    requires forall k :: 0 <= k < |lines| ==> HeaderLineOk(lines[k])
    ensures !Contains(Join(lines, ""), Marker)
    ensures |lines| > 0 ==> IsLine(Join(lines, ""))
    decreases |lines|
  {
    if |lines| > 1 {
      var rest := Join(lines[1..], "");
      LinesLackMarker(lines[1..]);
      assert Join(lines, "") == lines[0] + rest;
      ContainsConcat(lines[0], rest, Marker);
    }
  }

  /** A line of the header: complete, and without the marker. */
  predicate HeaderLineOk(s: string) {
    IsLine(s) && !Contains(s, Marker)
  }

  // Each line of the header misses 'S' or 'j', two characters of the marker.

  lemma TitleLineOk() ensures HeaderLineOk(HeaderTitle) {
    assert IsLine(HeaderTitle) && 'S' !in HeaderTitle;
    LineLacksMarker(HeaderTitle, 'S');
  }
  lemma WarningLineOk() ensures HeaderLineOk(HeaderWarning) {
    assert IsLine(HeaderWarning) && 'S' !in HeaderWarning;
    LineLacksMarker(HeaderWarning, 'S');
  }
  lemma MustLineOk() ensures HeaderLineOk(HeaderMust) {
    assert IsLine(HeaderMust) && 'j' !in HeaderMust;
    LineLacksMarker(HeaderMust, 'j');
  }
  lemma Rule1LineOk() ensures HeaderLineOk(HeaderRule1) {
    assert IsLine(HeaderRule1) && 'S' !in HeaderRule1;
    LineLacksMarker(HeaderRule1, 'S');
  }
  lemma Rule2LineOk() ensures HeaderLineOk(HeaderRule2) {
    assert IsLine(HeaderRule2) && 'j' !in HeaderRule2;
    LineLacksMarker(HeaderRule2, 'j');
  }
  lemma Rule3LineOk() ensures HeaderLineOk(HeaderRule3) {
    assert IsLine(HeaderRule3) && 'S' !in HeaderRule3;
    LineLacksMarker(HeaderRule3, 'S');
  }
  lemma Rule4LineOk() ensures HeaderLineOk(HeaderRule4) {
    assert IsLine(HeaderRule4) && 'S' !in HeaderRule4;
    LineLacksMarker(HeaderRule4, 'S');
  }
  lemma ReferenceLineOk() ensures HeaderLineOk(HeaderReference) {
    assert IsLine(HeaderReference) && 'S' !in HeaderReference;
    LineLacksMarker(HeaderReference, 'S');
  }

  /** The header does not hold the marker the wrapper looks for, and it ends with a line break. */
  lemma HeaderLacksMarker()
    ensures !Contains(Header, Marker) && IsLine(Header)
  {
    TitleLineOk();
    WarningLineOk();
    MustLineOk();
    Rule1LineOk();
    Rule2LineOk();
    Rule3LineOk();
    Rule4LineOk();
    ReferenceLineOk();
    LinesLackMarker(HeaderLines);
  }

  /** Only the header and nothing else is put in front of an unmarked trajectory. */
  lemma WrapAddsHeader(trajectory: string)
    requires trajectory != "" && !Contains(trajectory, Marker)
    ensures FormatTrajectoryAsInstructions(trajectory) == Header + trajectory
    ensures !Contains(FormatTrajectoryAsInstructions(trajectory), Marker)
  {
    HeaderLacksMarker();
    ContainsConcat(Header, trajectory, Marker);
  }

  /**
   * Wrapping keeps the marker exactly when the input has it. The header does
   * not carry the marker, so wrapping twice is a no-op only for marked or
   * empty text: any other trajectory gets the header twice.
   */
  lemma {:induction false} WrapTwice(trajectory: string)
    ensures Contains(FormatTrajectoryAsInstructions(trajectory), Marker) <==> Contains(trajectory, Marker)
    ensures trajectory == "" || Contains(trajectory, Marker) ==>
              FormatTrajectoryAsInstructions(FormatTrajectoryAsInstructions(trajectory))
              == FormatTrajectoryAsInstructions(trajectory)
    ensures trajectory != "" && !Contains(trajectory, Marker) ==>
              FormatTrajectoryAsInstructions(FormatTrajectoryAsInstructions(trajectory))
              == Header + (Header + trajectory)
              != FormatTrajectoryAsInstructions(trajectory)
  {
    if trajectory != "" && !Contains(trajectory, Marker) {
      WrapAddsHeader(trajectory);
      WrapAddsHeader(Header + trajectory);
      HeaderLacksMarker();
      assert |Header + (Header + trajectory)| > |Header + trajectory|;
    }
  }
}

=== FILE: json.dfy ===
/**
 * JSON values as the trajectory code sees them: decoded `jsonb` columns and
 * `json.loads` results on the Python side, `->` / `->>` projections on the
 * PostgreSQL side, and `json.dumps` for rendering action details.
 *
 * An object keeps its members in insertion order, as a Python dict does.
 * Numbers are integers only.
 */
module Json {
  import opened Wrappers
  import opened Text

  datatype Json =
    | JNull
    | JBool(b: bool)
    | JInt(i: int)
    | JStr(s: string)
    | JArr(items: seq<Json>)
    | JObj(members: seq<Member>)

  datatype Member = Member(key: string, value: Json)

  // ---------------------------------------------------------------------------
  // Dictionaries: lookup and in-place assignment

  /** `d.get(key)`: the value stored under `key`, if any. */
  function Get(members: seq<Member>, key: string): (r: Option<Json>)
    ensures r.Some? <==> exists i :: 0 <= i < |members| && members[i].key == key
    decreases |members|
  {
    if |members| == 0 then None
    else if members[0].key == key then Some(members[0].value)
    else Get(members[1..], key)
  }

  /** `key in d` for a dict. */
  predicate HasKey(members: seq<Member>, key: string) {
    Get(members, key).Some?
  }

  /**
   * `d[key] = value`: a key already present keeps its position and takes the
   * new value; a new key goes to the end.
   */
  function Put(members: seq<Member>, key: string, value: Json): (r: seq<Member>)
    ensures Get(r, key) == Some(value)
    ensures forall k :: k != key ==> Get(r, k) == Get(members, k)
    ensures |r| == if HasKey(members, key) then |members| else |members| + 1
    ensures forall i :: 0 <= i < |members| ==> r[i].key == members[i].key
    decreases |members|
  {
    if |members| == 0 then [Member(key, value)]
    else if members[0].key == key then [Member(key, value)] + members[1..]
    else [members[0]] + Put(members[1..], key, value)
  }

  // ---------------------------------------------------------------------------
  // Python's view of a decoded value

  /** Python's `bool(v)` on a decoded value. */
  predicate Truthy(j: Json) {
    match j
    case JNull => false
    case JBool(b) => b
    case JInt(i) => i != 0
    case JStr(s) => |s| > 0
    case JArr(items) => |items| > 0
    case JObj(members) => |members| > 0
  }

  /** Exactly six values are falsy: None, False, 0, "", [] and {}. */
  lemma FalsyValues(j: Json)
    ensures !Truthy(j) <==> j in {JNull, JBool(false), JInt(0), JStr(""), JArr([]), JObj([])}
  {
  }

  /**
   * Python's `key in container` for a string `key`: dict keys, list
   * elements, or a substring. None when Python raises TypeError (the
   * container is None, a bool or an int).
   */
  function PyIn(key: string, container: Json): (r: Option<bool>)
    ensures r.None? <==> container.JNull? || container.JBool? || container.JInt?
    ensures container.JObj? ==> r == Some(HasKey(container.members, key))
  {
    match container
    case JObj(members) => Some(HasKey(members, key))
    case JArr(items) => Some(JStr(key) in items)
    case JStr(s) => Some(Contains(s, key))
    case _ => None
  }

  /**
   * Python's `container[key]` for a string `key` that `PyIn` found: only a
   * dict can be indexed by a string; a list or a str raises TypeError (None).
   */
  function PyIndex(container: Json, key: string): (r: Option<Json>)
    ensures r.Some? <==> container.JObj? && HasKey(container.members, key)
    ensures container.JObj? ==> r == Get(container.members, key)
  {
    if container.JObj? then Get(container.members, key) else None
  }

  // ---------------------------------------------------------------------------
  // PostgreSQL's view of a jsonb value

  /** PostgreSQL's `j -> key`: the member's value, SQL NULL (JNull) when absent or not an object. */
  function Field(j: Json, key: string): (r: Json)
    ensures r != JNull ==> j.JObj? && Get(j.members, key) == Some(r)
    ensures j.JObj? && HasKey(j.members, key) ==> Get(j.members, key) == Some(r)
  {
    if j.JObj? then Get(j.members, key).GetOr(JNull) else JNull
  }

  /**
   * PostgreSQL's `->>` result: the text of a value; a string without its
   * quotes, JSON null as SQL NULL, anything else in its JSON text form.
   */
  function PgText(j: Json): (r: Option<string>)
    ensures r.None? <==> j.JNull?
    ensures j.JStr? ==> r == Some(j.s)
  {
    match j
    case JNull => None
    case JStr(s) => Some(s)
    case _ => Some(Dumps(j))
  }

  // ---------------------------------------------------------------------------
  // json.dumps(v, ensure_ascii=False) with the default separators

  function HexDigit(d: nat): (c: char)
    requires d < 16
    ensures c != '\n'
  {
    "0123456789abcdef"[d]
  }

  /** The escaped form of one character inside a JSON string. */
  function EscapeChar(c: char): (r: string)
    ensures '\n' !in r
    ensures c >= ' ' && c != '"' && c != '\\' ==> r == [c]
  {
    if c == '"' then "\\\""
    else if c == '\\' then "\\\\"
    else if c == '\n' then "\\n"
    else if c == '\r' then "\\r"
    else if c == '\t' then "\\t"
    else if c == '\U{8}' then "\\b"
    else if c == '\U{C}' then "\\f"
    else if c < ' ' then "\\u00" + [HexDigit(c as int / 16), HexDigit(c as int % 16)]
    else [c]
  }

  /** A string as a JSON string literal. */
  function Quote(s: string): (r: string)
    ensures |r| >= 2 && r[0] == '"' && r[|r| - 1] == '"'
    ensures '\n' !in r
  {
    var body := Join(seq(|s|, i requires 0 <= i < |s| => EscapeChar(s[i])), "");
    JoinAvoids(seq(|s|, i requires 0 <= i < |s| => EscapeChar(s[i])), "", '\n');
    "\"" + body + "\""
  }

  /** Python's `str(i)` for an integer. */
  function IntToString(i: int): (r: string)
    ensures '\n' !in r
  {
    if i < 0 then "-" + NatToString(-i) else NatToString(i)
  }

  /** `json.dumps(j, ensure_ascii=False)`: `", "` between items, `": "` after keys. */
  function Dumps(j: Json): (r: string)
    ensures |r| > 0
    ensures j.JObj? ==> r[0] == '{' && r[|r| - 1] == '}'
    ensures j.JArr? ==> r[0] == '[' && r[|r| - 1] == ']'
    decreases j
  {
    match j
    case JNull => "null"
    case JBool(b) => if b then "true" else "false"
    case JInt(i) => IntToString(i)
    case JStr(s) => Quote(s)
    case JArr(items) =>
      "[" + Join(seq(|items|, i requires 0 <= i < |items| => Dumps(items[i])), ", ") + "]"
    case JObj(members) =>
      "{" + Join(seq(|members|, i requires 0 <= i < |members| =>
                   Quote(members[i].key) + ": " + Dumps(members[i].value)), ", ") + "}"
  }

  /** `json.dumps` without `indent` never breaks a line: control characters are escaped. */
  lemma {:induction false} DumpsIsOneLine(j: Json)
    ensures '\n' !in Dumps(j)
    decreases j
  {
    match j
    case JArr(items) =>
      var parts := seq(|items|, i requires 0 <= i < |items| => Dumps(items[i]));
      forall k | 0 <= k < |items| ensures '\n' !in parts[k] {
        DumpsIsOneLine(items[k]);
      }
      JoinAvoids(parts, ", ", '\n');
    case JObj(members) =>
      var parts := seq(|members|, i requires 0 <= i < |members| =>
                       Quote(members[i].key) + ": " + Dumps(members[i].value));
      forall k | 0 <= k < |members| ensures '\n' !in parts[k] {
        DumpsIsOneLine(members[k].value);
      }
      JoinAvoids(parts, ", ", '\n');
    case _ =>
  }
}

=== FILE: models.dfy ===
/** The task record the workflow passes between its two activities. */
module Models {
  /** `Task`: the agent's objective and the page it starts from. */
  datatype Task = Task(objective: string, startUrl: string)
}

=== FILE: store.dfy ===
/**
 * The read side of the trajectory store: the tenant gate that guards the
 * candidate query, the candidate query itself (filters, then similarity
 * descending, then creation time descending, first row only) and the event
 * query that lists a trajectory's tool results in index order.
 *
 * The queries are modelled as functions over the rows of the `trajectory`
 * and `trajectory_event` tables. PostgreSQL's trigram `similarity` is a
 * parameter.
 */
module TrajectoryStore {
  import opened Wrappers
  import opened Text
  import opened Json

  /** A `trajectory_event` row: its `index`, its `type` and its `data->'event'` document. */
  datatype StoredEvent = StoredEvent(index: int, eventType: string, event: Json)

  /** A `trajectory` row with the events that reference it. */
  datatype Trajectory = Trajectory(
    id: int,
    startUrl: string,
    objective: string,
    status: string,
    error: Option<string>,
    runSettings: Json,
    orgId: Option<string>,
    createdAt: int,
    events: seq<StoredEvent>)

  /** The parameters bound into the candidate query. */
  datatype Query = Query(objective: string, startUrl: string, orgId: string)

  /** Trigram similarity of a stored objective to the requested one, as PostgreSQL computes it. */
  type Similarity = (string, string) -> real

  /** The values that stand for "no organisation configured" and are refused. */
  const Placeholders: set<string> := {"your-org-id-here", "test", "example"}

  /** The least similarity a candidate must exceed. */
  const MinSimilarity: real := 0.1

  // ---------------------------------------------------------------------------
  // Tenant gate

  /** The organisation id lets the candidate query run: present, non-empty, not a placeholder. */
  predicate OrgAdmissible(org: Option<string>) {
    org.Some? && org.value != "" && org.value !in Placeholders
  }

  // ---------------------------------------------------------------------------
  // Candidate query

  /** `te.type = 'AgentEvent' AND te.data->'event'->>'kind' = 'tool_result'`. */
  predicate IsToolResult(e: StoredEvent) {
    e.eventType == "AgentEvent" && PgText(Field(e.event, "kind")) == Some("tool_result")
  }

  /** A tool result of the `answer` tool whose result text contains `success=True`. */
  predicate IsValidatedAnswer(e: StoredEvent) {
    && IsToolResult(e)
    && PgText(Field(Field(e.event, "tool_req"), "tool_name")) == Some("answer")
    && var result := PgText(Field(e.event, "result"));
       result.Some? && Contains(result.value, "success=True")
  }

  /** `t.run_settings->'web'->>'headless' = 'true'` (a JSON `true` or the string "true"). */
  predicate Headless(t: Trajectory) {
    PgText(Field(Field(t.runSettings, "web"), "headless")) == Some("true")
  }

  /** Every condition of the candidate query's WHERE clause. */
  predicate Qualifies(t: Trajectory, q: Query, similarity: Similarity) {
    && t.startUrl == q.startUrl
    && t.status == "completed"
    && t.error.None?
    && Headless(t)
    && similarity(t.objective, q.objective) > MinSimilarity
    && t.orgId == Some(q.orgId)
    && exists i :: 0 <= i < |t.events| && IsValidatedAnswer(t.events[i])
  }

  /** `a` comes before `b` in the query's ORDER BY: more similar, or as similar and newer. */
  predicate Outranks(a: Trajectory, b: Trajectory, q: Query, similarity: Similarity) {
    || similarity(a.objective, q.objective) > similarity(b.objective, q.objective)
    || (similarity(a.objective, q.objective) == similarity(b.objective, q.objective)
        && a.createdAt > b.createdAt)
  }

  /**
   * Not being outranked is a total preorder: outranking is asymmetric, and
   * "does not outrank" chains.
   */
  lemma OutranksIsOrder(a: Trajectory, b: Trajectory, c: Trajectory, q: Query, similarity: Similarity)
    ensures Outranks(a, b, q, similarity) ==> !Outranks(b, a, q, similarity)
    ensures !Outranks(a, b, q, similarity) && !Outranks(b, c, q, similarity) ==> !Outranks(a, c, q, similarity)
  {
  }

  /**
   * The row `LIMIT 1` returns: a qualifying trajectory that no other
   * qualifying trajectory outranks, or none when nothing qualifies. Among
   * rows equal in both sort keys the earliest in `ts` is taken.
   */
  function BestCandidate(ts: seq<Trajectory>, q: Query, similarity: Similarity): (r: Option<Trajectory>)
    ensures r.Some? ==> r.value in ts && Qualifies(r.value, q, similarity)
    ensures r.Some? ==> forall t :: t in ts && Qualifies(t, q, similarity) ==> !Outranks(t, r.value, q, similarity)
    ensures r.None? <==> forall t :: t in ts ==> !Qualifies(t, q, similarity)
    decreases |ts|
  {
    if |ts| == 0 then None
    else
      var rest := BestCandidate(ts[1..], q, similarity);
      assert forall t :: t in ts ==> t == ts[0] || t in ts[1..];
      if !Qualifies(ts[0], q, similarity) then rest
      else if rest.Some? && Outranks(rest.value, ts[0], q, similarity) then
        OutranksIsOrder(rest.value, ts[0], rest.value, q, similarity);
        rest
      else
        assert forall t :: t in ts[1..] && Qualifies(t, q, similarity) ==> !Outranks(t, ts[0], q, similarity) by {
          forall t | t in ts[1..] && Qualifies(t, q, similarity) ensures !Outranks(t, ts[0], q, similarity) {
            OutranksIsOrder(t, rest.value, ts[0], q, similarity);
          }
        }
        Some(ts[0])
  }

  // ---------------------------------------------------------------------------
  // Event query

  /** The WHERE clause of the event query. */
  function ToolResults(events: seq<StoredEvent>): (r: seq<StoredEvent>)
    ensures forall e :: e in r <==> e in events && IsToolResult(e)
    ensures forall e :: multiset(r)[e] == if IsToolResult(e) then multiset(events)[e] else 0
    ensures |r| <= |events|
    decreases |events|
  {
    if |events| == 0 then []
    else
      assert events == [events[0]] + events[1..];
      if IsToolResult(events[0]) then [events[0]] + ToolResults(events[1..])
      else ToolResults(events[1..])
  }

  predicate SortedByIndex(s: seq<StoredEvent>) {
    forall i, j :: 0 <= i < j < |s| ==> s[i].index <= s[j].index
  }

  function InsertByIndex(e: StoredEvent, s: seq<StoredEvent>): (r: seq<StoredEvent>)
    requires SortedByIndex(s)
    ensures SortedByIndex(r)
    ensures multiset(r) == multiset(s) + multiset{e}
    decreases |s|
  {
    if |s| == 0 || e.index <= s[0].index then [e] + s
    else
      var tail := InsertByIndex(e, s[1..]);
      assert s == [s[0]] + s[1..];
      assert tail[0] in multiset(tail);
      [s[0]] + tail
  }

  /** `ORDER BY te.index`: the same events, in ascending index order. */
  function SortByIndex(events: seq<StoredEvent>): (r: seq<StoredEvent>)
    ensures SortedByIndex(r)
    ensures multiset(r) == multiset(events)
    decreases |events|
  {
    if |events| == 0 then []
    else
      assert events == [events[0]] + events[1..];
      InsertByIndex(events[0], SortByIndex(events[1..]))
  }

  /** The rows of the event query for one trajectory: its tool results, by index. */
  function EventQuery(t: Trajectory): (r: seq<StoredEvent>)
    ensures SortedByIndex(r)
    ensures forall e :: e in r <==> e in t.events && IsToolResult(e)
    ensures forall e :: multiset(r)[e] == if IsToolResult(e) then multiset(t.events)[e] else 0
  {
    var rows := SortByIndex(ToolResults(t.events));
    assert forall e :: e in rows <==> e in multiset(rows);
    rows
  }
}

=== FILE: text.dfy ===
/**
 * The few string operations of Python that the trajectory code relies on:
 * substring tests (`p in s`), `str.replace(p, "")`, decimal rendering of the
 * step counter, and `"\n".join` / `str.split("\n")`.
 */
module Text {

  /** `p` is a prefix of `s`. */
  predicate IsPrefix(p: string, s: string) {
    |p| <= |s| && p == s[..|p|]
  }

  /** `suffix` ends `s`. */
  predicate IsSuffixOf(suffix: string, s: string) {
    |suffix| <= |s| && s[|s| - |suffix|..] == suffix
  }

  /** Whatever ends `b` also ends `a + b`. */
  lemma SuffixOfAppend(a: string, b: string, suffix: string)
    requires IsSuffixOf(suffix, b)
    ensures IsSuffixOf(suffix, a + b)
  {
    var s := a + b;
    assert s[|s| - |suffix|..] == b[|b| - |suffix|..];
  }

  /** Python's `p in s` on two strings: `p` occurs somewhere in `s`. */
  predicate Contains(s: string, p: string)
    decreases |s|
  {
    IsPrefix(p, s) || (|s| > 0 && Contains(s[1..], p))
  }

  /** `p` occurs in `s` at position `i`. */
  predicate OccursAt(s: string, p: string, i: int) {
    0 <= i && i + |p| <= |s| && s[i..i + |p|] == p
  }

  /** Every occurrence found by Contains sits at some position. */
  lemma {:induction false} OccurrenceOf(s: string, p: string) returns (i: int)
    requires Contains(s, p)
    ensures OccursAt(s, p, i)
    decreases |s|
  {
    if IsPrefix(p, s) {
      i := 0;
    } else {
      var j := OccurrenceOf(s[1..], p);
      assert s[j + 1..j + 1 + |p|] == s[1..][j..j + |p|];
      i := j + 1;
    }
  }

  /** An occurrence at any position is seen by Contains. */
  lemma {:induction false} OccursAtContains(s: string, p: string, i: int)
    requires OccursAt(s, p, i)
    ensures Contains(s, p)
    decreases i
  {
    if i > 0 {
      assert s[1..][i - 1..i - 1 + |p|] == s[i..i + |p|];
      OccursAtContains(s[1..], p, i - 1);
    }
  }

  /** Contains agrees with the positional definition of an occurrence. */
  lemma ContainsIff(s: string, p: string)
    ensures Contains(s, p) <==> exists i :: OccursAt(s, p, i)
  {
    if Contains(s, p) {
      var i := OccurrenceOf(s, p);
    }
    forall i | OccursAt(s, p, i) ensures Contains(s, p) {
      OccursAtContains(s, p, i);
    }
  }

  /** A pattern is never found in a shorter string. */
  lemma ContainsLength(s: string, p: string)
    ensures Contains(s, p) ==> |p| <= |s|
  {
    if Contains(s, p) {
      var i := OccurrenceOf(s, p);
    }
  }

  /** Every character of a pattern that occurs in `s` occurs in `s`. */
  lemma ContainsChars(s: string, p: string, c: char)
    requires c in p
    ensures Contains(s, p) ==> c in s
  {
    if Contains(s, p) {
      var i := OccurrenceOf(s, p);
      var j :| 0 <= j < |p| && p[j] == c;
      assert s[i + j] == s[i..i + |p|][j] == c;
    }
  }

  /** A string holding `p` holds every piece of `p`. */
  lemma ContainsPiece(s: string, p: string, j: nat, q: string)
    requires j + |q| <= |p| && p[j..j + |q|] == q
    ensures Contains(s, p) ==> Contains(s, q)
  {
    if Contains(s, p) {
      var i := OccurrenceOf(s, p);
      forall t | 0 <= t < |q| ensures s[i + j + t] == q[t] {
        assert s[i + j + t] == s[i..i + |p|][j + t] == p[j + t] == p[j..j + |q|][t];
      }
      assert s[i + j..i + j + |q|] == q;
      OccursAtContains(s, q, i + j);
    }
  }

  /**
   * An occurrence in `a + b` lies inside `a`, inside `b`, or covers the last
   * character of `a`.
   */
  lemma ContainsConcat(a: string, b: string, p: string)
    requires |a| > 0
    ensures Contains(a + b, p) ==> Contains(a, p) || Contains(b, p) || a[|a| - 1] in p
  {
    if Contains(a + b, p) {
      var s := a + b;
      var i := OccurrenceOf(s, p);
      if i + |p| <= |a| {
        assert s[i..i + |p|] == a[i..i + |p|];
        OccursAtContains(a, p, i);
      } else if i >= |a| {
        assert s[i..i + |p|] == b[i - |a|..i - |a| + |p|];
        OccursAtContains(b, p, i - |a|);
      } else {
        assert p[|a| - 1 - i] == s[i..i + |p|][|a| - 1 - i] == a[|a| - 1];
      }
    }
  }

  /**
   * Python's `s.replace(p, "")`: scans left to right and deletes each
   * non-overlapping occurrence of `p`; text that comes together after a
   * deletion is not scanned again.
   */
  function RemoveAll(s: string, p: string): (r: string)
    requires |p| > 0
    ensures |r| <= |s|
    decreases |s|
  {
    if |s| < |p| then s
    else if IsPrefix(p, s) then RemoveAll(s[|p|..], p)
    else [s[0]] + RemoveAll(s[1..], p)
  }

  /** Deleting an occurrence shortens the string by at least its length. */
  lemma {:induction false} RemoveAllShrinks(s: string, p: string)
    requires |p| > 0
    ensures Contains(s, p) ==> |RemoveAll(s, p)| <= |s| - |p|
    decreases |s|
  {
    ContainsLength(s, p);
    if |s| >= |p| && !IsPrefix(p, s) {
      RemoveAllShrinks(s[1..], p);
    }
  }

  /** `replace` leaves a string unchanged exactly when the pattern does not occur in it. */
  lemma {:induction false} RemoveAllUnchanged(s: string, p: string)
    requires |p| > 0
    ensures RemoveAll(s, p) == s <==> !Contains(s, p)
    decreases |s|
  {
    if Contains(s, p) {
      RemoveAllShrinks(s, p);
    } else if |s| < |p| {
    } else {
      assert !IsPrefix(p, s) && !Contains(s[1..], p);
      RemoveAllUnchanged(s[1..], p);
      assert s == [s[0]] + s[1..];
    }
  }

  /** The character for a decimal digit 0..9. */
  function DigitChar(d: nat): (c: char)
    requires d < 10
    ensures '0' <= c <= '9'
  {
    "0123456789"[d]
  }

  /** Python's `str(n)` for a natural number, as the f-string renders a step number. */
  function NatToString(n: nat): (r: string)
    ensures |r| > 0 && forall i :: 0 <= i < |r| ==> '0' <= r[i] <= '9'
    decreases n
  {
    if n < 10 then [DigitChar(n)] else NatToString(n / 10) + [DigitChar(n % 10)]
  }

  /** The value of a string of decimal digits; the inverse of NatToString. */
  function DecimalValue(s: string): int
    decreases |s|
  {
    if s == [] then 0 else 10 * DecimalValue(s[..|s| - 1]) + (s[|s| - 1] as int - '0' as int)
  }

  lemma {:induction false} DecimalRoundTrip(n: nat)
    ensures DecimalValue(NatToString(n)) == n
    decreases n
  {
    var r := NatToString(n);
    if n < 10 {
      assert r[..0] == [];
      assert "0123456789"[n] as int - '0' as int == n;
    } else {
      DecimalRoundTrip(n / 10);
      assert r[..|r| - 1] == NatToString(n / 10);
      assert "0123456789"[n % 10] as int - '0' as int == n % 10;
    }
  }

  /** Python's `sep.join(parts)`. */
  function Join(parts: seq<string>, sep: string): string
    decreases |parts|
  {
    if |parts| == 0 then ""
    else if |parts| == 1 then parts[0]
    else parts[0] + sep + Join(parts[1..], sep)
  }

  /** Joining parts whose first one is non-empty gives a non-empty text. */
  lemma JoinNonEmpty(parts: seq<string>, sep: string)
    requires |parts| > 0 && |parts[0]| > 0
    ensures Join(parts, sep) != ""
  {
    if |parts| > 1 {
      assert |Join(parts, sep)| >= |parts[0]|;
    }
  }

  /** A character found in none of the parts nor in the separator is not in their join. */
  lemma {:induction false} JoinAvoids(parts: seq<string>, sep: string, c: char)
    requires c !in sep
    requires forall k :: 0 <= k < |parts| ==> c !in parts[k]
    ensures c !in Join(parts, sep)
    decreases |parts|
  {
    if |parts| > 1 {
      JoinAvoids(parts[1..], sep, c);
    }
  }

  /** Python's `s.split("\n")`: always at least one piece. */
  function SplitLines(s: string): (parts: seq<string>)
    ensures |parts| > 0
    decreases |s|
  {
    if |s| == 0 then [""]
    else if s[0] == '\n' then [""] + SplitLines(s[1..])
    else
      var rest := SplitLines(s[1..]);
      [[s[0]] + rest[0]] + rest[1..]
  }

  /** Text without a line break is a single piece; one more break adds one more piece. */
  lemma {:induction false} SplitPrefix(x: string, y: string)
    requires '\n' !in x
    ensures SplitLines(x) == [x]
    ensures SplitLines(x + "\n" + y) == [x] + SplitLines(y)
    decreases |x|
  {
    if |x| == 0 {
      assert x + "\n" + y == ['\n'] + y;
      assert (['\n'] + y)[1..] == y;
    } else {
      SplitPrefix(x[1..], y);
      assert (x + "\n" + y)[1..] == x[1..] + "\n" + y;
      assert [x[0]] + x[1..] == x;
    }
  }

  /** Splitting the joined lines gives the lines back, when none holds a line break. */
  lemma {:induction false} SplitJoin(lines: seq<string>)
    requires |lines| > 0
    requires forall k :: 0 <= k < |lines| ==> '\n' !in lines[k]
    ensures SplitLines(Join(lines, "\n")) == lines
    decreases |lines|
  {
    if |lines| == 1 {
      SplitPrefix(lines[0], "");
    } else {
      SplitJoin(lines[1..]);
      SplitPrefix(lines[0], Join(lines[1..], "\n"));
      assert lines == [lines[0]] + lines[1..];
    }
  }

  /** Joining the pieces of a split gives the text back. */
  lemma {:induction false} JoinSplit(s: string)
    ensures Join(SplitLines(s), "\n") == s
    decreases |s|
  {
    if |s| == 0 {
    } else if s[0] == '\n' {
      JoinSplit(s[1..]);
      var rest := SplitLines(s[1..]);
      assert ([""] + rest)[1..] == rest;
      assert s == "\n" + s[1..];
    } else {
      JoinSplit(s[1..]);
      var rest := SplitLines(s[1..]);
      var parts := [[s[0]] + rest[0]] + rest[1..];
      assert parts[1..] == rest[1..];
      if |rest| == 1 {
        assert s == [s[0]] + s[1..];
      } else {
        assert rest == [rest[0]] + rest[1..];
        assert Join(rest, "\n") == rest[0] + "\n" + Join(rest[1..], "\n");
        assert s == [s[0]] + s[1..];
      }
    }
  }
}

=== FILE: wrappers.dfy ===
/** Option and Result values, used where the source returns None or raises. */
module Wrappers {

  datatype Option<+T> = None | Some(value: T) {

    /** The wrapped value, or `default` when there is none. */
    function GetOr(default: T): T {
      match this
      case Some(v) => v
      case None => default
    }
  }

  datatype Result<+T, +E> = Success(value: T) | Failure(error: E)
}
